=== FILE: README.md ===
# AI Sticky Notes: a model of the note log

The sticky-notes server keeps a log of notes in one text file. It exposes four
operations, and each of them first calls the internal helper `ensure_file`,
which creates the file empty if it is missing:

- `add_note` appends a message and a line break, and confirms with "Note saved!".
- `read_notes` returns the whole content with whitespace stripped from both ends.
- `get_latest_note` returns the last line `readlines()` yields, stripped.
- `note_summary_prompt` puts the stripped content after a fixed request for a
  summary.

`read_notes` and `note_summary_prompt` return the sentinel "No notes yet"
when the content is only whitespace. `get_latest_note` returns it only when
the file is empty, and "" when its last line is blank.

This project models that log as a state machine. The state is a
`File = Option<string>`: `None` while the file does not exist, otherwise its
raw content. Every operation is a pure function from the state before the call
to a `Reply`, which holds the state afterwards and the returned text.

The modules are:

- `Wrappers`: the `Option` type.
- `Whitespace`: Python's `str.isspace()` and `str.strip()`. The whitespace set
  is Python's full one: the ASCII controls TAB..CR and FS..US, SPACE, NEL,
  NO-BREAK SPACE, and the Unicode space, line and paragraph separators.
  - Stripping is characterised independently. Whatever whitespace surrounds a
    string with no whitespace at either end, stripping returns exactly that
    string.
- `Lines`: how a file opened in text mode reads back.
  - Universal newline translation: "\r\n" and a lone "\r" both read as "\n".
  - `readlines()` splits after every "\n", keeps the terminator, and counts a
    final unterminated fragment as a line.
  - Splitting is characterised independently. Any list of well-formed lines is
    what `readlines()` returns for their concatenation.
- `Notes`: `ensure_file` and the four exposed operations.
- `NoteLog`: sessions of calls. It covers:
  - which files can be reached from a missing one;
  - what the content is after a run of appends;
  - what the readers return afterwards: append order, the latest note, the
    sentinel cases, and the summary containing every note.

Where the docstrings and the code disagree, the model follows the code:

- **Sentinel text.** The docstring of `read_notes` (notes.py:50) names the
  sentinel "No notes available". The code returns "No notes yet" (notes.py:56).
- **Joined notes.** The same docstring (notes.py:49) promises all notes
  "as a single string separated by line breaks". The code strips the whole
  content at both ends (notes.py:55), so whitespace at the start of the first
  note and at the end of the last one is lost, and so are empty first and
  last notes (`NoteLog.EmptyFirstNoteBreaksJoin`).

## Model

| member | source | states |
|---|---|---|
| Whitespace.IsSpace | notes.py:55 | The characters Python's `str.isspace()` accepts, written as code point ranges; this set decides every strip and every sentinel result |
| Whitespace.IsSpaceMatchesTable | notes.py:55 | The range form accepts exactly the 29 whitespace code points listed one by one |
| Notes.EnsureFile | notes.py:22-25 | A missing file becomes present and empty; a present file is left exactly as it was |
| NoteLog.EnsureFileIdempotent | notes.py:22-25 | Calling `ensure_file` a second time changes nothing |
| Notes.AddNote | notes.py:39-42 | The old content, or "" for a missing file, stays an exact prefix; exactly the message and one "\n" follow it; the reply is always "Note saved!" |
| Notes.ReadText | notes.py:54 | What `f.read()` returns after `ensure_file`: never a '\r', empty exactly when the file is, and the raw content itself when that holds no '\r' |
| Notes.ReadNotes | notes.py:53-56 | The content is untouched apart from lazy creation; the reply is the sentinel when the content is only whitespace, and otherwise the non-empty strip of the text as read |
| Notes.GetLatestNote | notes.py:60-63 | The content is untouched apart from lazy creation; the reply is the sentinel for an empty file; for any other file it is the strip of the text from where its last line starts (the front, or just after a '\n' that is not the final character), so a trimmed string with no line break |
| Notes.NoteSummaryPrompt | notes.py:72-77 | The reply is the sentinel exactly when the content is only whitespace; otherwise it is the fixed request followed by what `read_notes` returns |
| Whitespace.Strip | notes.py:55 | `strip()` returns a string with no whitespace at either end, and it is empty exactly when the input is all whitespace |
| Whitespace.StripCutsOnlySpace | notes.py:55 | The stripped text is the input's own slice from the first kept index; only whitespace lies before and after it |
| Whitespace.StripSplit | notes.py:55 | Every string is its strip with a whitespace-only run on either side |
| Whitespace.StripCharacterized | notes.py:55 | Strip is the inverse of surrounding: whitespace around a string with no whitespace at either end is all that `strip()` removes |
| Whitespace.StripIdempotent | notes.py:55 | Stripping twice gives the same result as stripping once |
| Whitespace.StripIgnoresTrailingSpace | notes.py:55 | Whitespace appended to a string does not change its strip |
| Whitespace.StripIgnoresLeadingSpace | notes.py:55 | Whitespace put in front of a string does not change its strip |
| Whitespace.StripIgnoresSurroundingSpace | notes.py:55 | Whitespace added on both sides does not change the strip |
| Whitespace.StripKeepsTrimmedInfix | notes.py:74-77 | A non-empty piece with no whitespace at either end survives stripping, at the same position relative to the first kept character |
| Lines.Universal | notes.py:54 | Text read in text mode never contains a '\r', and it is empty exactly when the raw content is |
| Lines.UniversalIdentity | notes.py:54 | Content with no '\r' reads back unchanged |
| Lines.UniversalKeepsBlankness | notes.py:54-56 | Newline translation neither creates nor removes non-whitespace, so the sentinel decision is the same on raw and translated content |
| Lines.UniversalConcat | notes.py:54 | Translation works piece by piece when the first piece does not end in a '\r' |
| Lines.UniversalCrLf | notes.py:54 | A "\r\n" pair at the front of the content reads as one '\n' |
| Lines.UniversalCr | notes.py:54 | A '\r' at the front that no '\n' follows reads as one '\n' |
| Lines.UniversalSplice | notes.py:54 | A piece that reads as some text still reads as that text after a prefix that does not end in '\r' |
| Lines.UniversalCrLfBreak | notes.py:54 | A "\r\n" pair anywhere reads as one '\n', with the text on either side translated on its own |
| Lines.UniversalCrBreak | notes.py:54 | A lone '\r' anywhere (no '\n' after it) reads as one '\n', with the text on either side translated on its own |
| Lines.UniversalKeepsFinalBreak | notes.py:54 | Content that ends in "\n" still ends in "\n" after translation |
| Lines.LineLength | notes.py:62 | The first line `readlines()` yields runs up to and including the first "\n", or to the end of the text |
| Lines.ReadLines | notes.py:62 | `readlines()` loses and adds nothing: its lines concatenate back to the text; each line is non-empty with "\n" only at its end; every line but the last is terminated; no lines exactly for empty text |
| Lines.ReadLinesUnique | notes.py:62 | Any list of well-formed lines is exactly what `readlines()` returns for their concatenation |
| Lines.ReadLinesAppendLine | notes.py:40-62 | Appending one line to text that is empty or ends in "\n" appends exactly that line to what `readlines()` returns |
| Lines.LastLineUnique | notes.py:62-63 | Text has at most one position where its last line starts (`Lines.ReadLinesLast` supplies one for non-empty text) |
| Lines.ReadLinesLast | notes.py:62-63 | The last line `readlines()` yields is the text from where its last line starts, to the end |
| Lines.StripLineHasNoBreak | notes.py:63 | A stripped line contains no "\n" |
| NoteLog.Apply | notes.py:22-77 | Each call runs one of the five operations; no call removes content: the file afterwards exists and starts with what was there, and only an append changes it |
| NoteLog.NextAppends | notes.py:39-42 | One call leaves the content it found, plus its own message and "\n" when it is an append |
| NoteLog.RunAppends | notes.py:22-42 | Any run of calls leaves the starting content followed by each appended message and its "\n", in call order; an empty run leaves the file alone |
| NoteLog.RunKeepsConsistent | notes.py:22-42 | Every operation keeps a file that is missing, empty or ends in "\n" in that shape |
| NoteLog.Reachable | notes.py:22-42 | Every state reachable from a missing file is missing, empty, or ends in "\n" |
| NoteLog.AddsLeaveLog | notes.py:39-42 | Appending messages to a missing file leaves exactly their terminated concatenation |
| NoteLog.ReadTextOfAdds | notes.py:39-54 | When no message holds a '\r', reading the file back gives exactly what was written |
| NoteLog.EmptyStateSentinel | notes.py:53-77 | On a missing or empty file all three readers return "No notes yet" |
| NoteLog.LatestAfterAdd | notes.py:39-63 | After appending a single-line message to any reachable file, `get_latest_note` returns that message stripped |
| NoteLog.BlankNoteDivergence | notes.py:39-77 | A blank note on a blank file makes `get_latest_note` return "", while `read_notes` and the summary prompt still return the sentinel |
| NoteLog.EmptyNoteDivergence | notes.py:39-63 | `add_note("")` on a fresh file: `get_latest_note` returns "" but `read_notes` returns "No notes yet" |
| NoteLog.ReadNotesAfterBlank | notes.py:39-56 | After one append of a note without a '\r' to a blank file, `read_notes` returns the note stripped, or the sentinel when the note is blank |
| NoteLog.SentinelNoteIsInvisible | notes.py:39-56 | A note whose text is "No notes yet" reads back exactly like no notes at all |
| NoteLog.NotesAreLines | notes.py:39-62 | After single-line appends, `readlines()` yields each message with its "\n", one line per note, in append order |
| NoteLog.LatestIsLastNote | notes.py:39-63 | After single-line appends, `get_latest_note` returns the last message, stripped |
| NoteLog.LogIsJoin | notes.py:41 | The appended log is the messages joined by "\n", plus a final "\n" |
| NoteLog.ReadNotesJoins | notes.py:39-56 | After single-line appends, `read_notes` returns the messages joined by "\n", if the first does not start and the last does not end with whitespace |
| NoteLog.AppendOrdering | notes.py:39-63 | Append ordering for trimmed single-line notes, the first and last non-empty: `read_notes` returns them joined by "\n" in call order, and `get_latest_note` returns the last |
| NoteLog.EmptyFirstNoteBreaksJoin | notes.py:39-56 | The non-empty condition is needed: after notes "" and m, `read_notes` returns m, not the joined "\n" + m |
| NoteLog.NoteInLog | notes.py:41 | Each message, stripped, occurs in the appended log at a known position |
| NoteLog.SummaryOfAdds | notes.py:72-77 | After appends of notes without a '\r', the summary prompt is the fixed request followed by the stripped log, or the sentinel when the log is only whitespace |
| NoteLog.SummaryMentionsEveryNote | notes.py:39-77 | The summary prompt after a run of appends contains every appended note, stripped |

## Left out

- The MCP framework is not modelled: the server object, the tool, resource and prompt decorators, and the transport started by `mcp.run` (notes.py:9, 17, 27, 44, 58, 65, 81-83). These are a third-party framework whose code is not part of this model.
- `load_dotenv` and how `NOTES_FILE` is resolved from the environment (notes.py:11-14, 20) are not modelled. The model has a single abstract file.
- The real `open`, `read` and `write` calls, UTF-8 encoding and decoding, and I/O errors are not modelled. The file is its content as a `string`, and no call fails.
- On read, text mode's universal newline translation is modelled. On write, no translation is modelled, as on POSIX: a Windows host would write "\r\n" for every "\n". That changes what reads back when a message holds a '\r' that ends up just before a written line break: `add_note("a\r")` reads back as one line "a" on POSIX but as the two lines "a" and "" on Windows.
- Concurrent callers are not modelled: operations run one at a time. The code promises no ordering between concurrent writers.
- `IsSpace` fixes Python's whitespace set as of current Unicode versions. A future Unicode version could change it.
- The `Touch` call models a bare `ensure_file`. Clients cannot call it on its own, because it carries no MCP decorator (notes.py:22). It leaves the file exactly as every reader does, so including it in runs changes no result. Python returns `None` from it; the model gives it the reply text "".
- NoteLog.AppendOrdering: the first and last notes must be non-empty. With an empty first note the leading "\n" is stripped away, as NoteLog.EmptyFirstNoteBreaksJoin shows. An empty last note behaves the same way.
- NoteLog.AppendOrdering, NoteLog.LatestIsLastNote, NoteLog.ReadNotesJoins: each note must hold no "\n" or "\r". A note with a line break reads back as several lines.
- NoteLog.SummaryMentionsEveryNote: no note may hold a '\r', because translation on read would change that note's text.
- NoteLog.LatestAfterAdd: holds only for files the server can reach (missing, empty or ending in "\n"). Appending to a file that does not end in a break would merge the note into its last line.

=== FILE: lines.dfy ===
/** How Python reads a text file opened with `open(path, "r")`: universal
    newline translation on read, and `readlines()` splitting. */
module Lines {
  import opened Whitespace

  /** How many raw characters the next translated character comes from:
      two for a "\r\n" pair, one otherwise. */
  function Width(s: string): (w: nat)
    requires s != []
    ensures 1 <= w <= |s|
  {
    if |s| >= 2 && s[0] == '\r' && s[1] == '\n' then 2 else 1
  }

  /** The translated character the first `Width(s)` raw characters become. */
  function Head(s: string): char
    requires s != []
  {
    if s[0] == '\r' then '\n' else s[0]
  }

  /** The text a read in universal-newlines mode returns for raw content `s`:
      every "\r\n" pair and every lone '\r' become a single '\n'. */
  function Universal(s: string): (r: string)
    ensures '\r' !in r
    ensures r == [] <==> s == []
    decreases |s|
  {
    if s == [] then [] else [Head(s)] + Universal(s[Width(s)..])
  }

  /** Content without a carriage return reads back unchanged. */
  lemma {:induction false} UniversalIdentity(s: string)
    requires '\r' !in s
    ensures Universal(s) == s
    decreases |s|
  {
    if s != [] {
      assert Width(s) == 1 && Head(s) == s[0];
      UniversalIdentity(s[1..]);
      assert s == [s[0]] + s[1..];
    }
  }

  lemma AllSpaceSingle(c: char)
    ensures AllSpace([c]) <==> IsSpace(c)
  {
    assert [c][0] == c;
  }

  /** Translation neither creates nor removes non-whitespace characters. */
  lemma {:induction false} UniversalKeepsBlankness(s: string)
    ensures AllSpace(Universal(s)) <==> AllSpace(s)
    decreases |s|
  {
    if s != [] {
      var w := Width(s);
      var rest := s[w..];
      var h := Head(s);
      assert AllSpace(Universal(s)) <==> IsSpace(h) && AllSpace(Universal(rest)) by {
        assert Universal(s) == [h] + Universal(rest);
        AllSpaceConcat([h], Universal(rest));
        AllSpaceSingle(h);
      }
      assert AllSpace(s) <==> IsSpace(h) && AllSpace(rest) by {
        assert s == s[..w] + rest;
        AllSpaceConcat(s[..w], rest);
        if w == 2 {
          assert s[..w] == [s[0]] + [s[1]];
          AllSpaceConcat([s[0]], [s[1]]);
          AllSpaceSingle(s[0]);
          AllSpaceSingle(s[1]);
        } else {
          assert s[..w] == [s[0]];
          AllSpaceSingle(s[0]);
        }
      }
      UniversalKeepsBlankness(rest);
    }
  }

  /** One translation step over `a + b` is the step over `a`, provided `a`
      does not end in a '\r'. */
  lemma UniversalStepConcat(a: string, b: string)
    requires a != [] && a[|a| - 1] != '\r'
    ensures Width(a + b) == Width(a) && Head(a + b) == Head(a)
    ensures (a + b)[Width(a)..] == a[Width(a)..] + b
  {
    var s := a + b;
    assert s[0] == a[0];
    assert a[0] == '\r' ==> |a| >= 2 && s[1] == a[1];
  }

  /** Translation works piece by piece, as long as the first piece does not
      end in a '\r' that the second piece could pair with. */
  lemma {:induction false} UniversalConcat(a: string, b: string)
    requires a == [] || a[|a| - 1] != '\r'
    ensures Universal(a + b) == Universal(a) + Universal(b)
    decreases |a|
  {
    if a == [] {
      assert a + b == b;
    } else {
      var w := Width(a);
      var h := [Head(a)];
      var t := a[w..];
      UniversalStepConcat(a, b);
      assert t == [] || t[|t| - 1] == a[|a| - 1];
      UniversalConcat(t, b);
      calc {
        Universal(a + b);
        h + Universal(t + b);
        h + (Universal(t) + Universal(b));
        (h + Universal(t)) + Universal(b);
        Universal(a) + Universal(b);
      }
    }
  }

  /** A "\r\n" pair at the front reads as one '\n'. */
  lemma UniversalCrLf(b: string)
    ensures Universal("\r\n" + b) == "\n" + Universal(b)
  {
    var s := "\r\n" + b;
    assert Width(s) == 2 && Head(s) == '\n' && s[2..] == b;
  }

  /** A '\r' at the front that no '\n' follows reads as one '\n'. */
  lemma UniversalCr(b: string)
    requires b == [] || b[0] != '\n'
    ensures Universal("\r" + b) == "\n" + Universal(b)
  {
    var s := "\r" + b;
    assert Width(s) == 1 && Head(s) == '\n' && s[1..] == b;
  }

  /** A piece `m` that reads as `r` in front of `b` still does so after a
      prefix that does not end in a '\r'. */
  lemma UniversalSplice(a: string, m: string, b: string, r: string)
    requires a == [] || a[|a| - 1] != '\r'
    requires Universal(m + b) == r + Universal(b)
    ensures Universal(a + m + b) == Universal(a) + r + Universal(b)
  {
    assert a + m + b == a + (m + b);
    UniversalConcat(a, m + b);
  }

  /** A "\r\n" pair reads as one '\n', and the text on either side is
      translated on its own. */
  lemma UniversalCrLfBreak(a: string, b: string)
    requires a == [] || a[|a| - 1] != '\r'
    ensures Universal(a + "\r\n" + b) == Universal(a) + "\n" + Universal(b)
  {
    UniversalCrLf(b);
    UniversalSplice(a, "\r\n", b, "\n");
  }

  /** A '\r' that no '\n' follows reads as one '\n', and the text on either
      side is translated on its own. */
  lemma UniversalCrBreak(a: string, b: string)
    requires a == [] || a[|a| - 1] != '\r'
    requires b == [] || b[0] != '\n'
    ensures Universal(a + "\r" + b) == Universal(a) + "\n" + Universal(b)
  {
    UniversalCr(b);
    UniversalSplice(a, "\r", b, "\n");
  }

  /** Content that ends in a line break still ends in one after translation. */
  lemma {:induction false} UniversalKeepsFinalBreak(s: string)
    requires s != [] && s[|s| - 1] == '\n'
    ensures Universal(s) != [] && Universal(s)[|Universal(s)| - 1] == '\n'
    decreases |s|
  {
    var rest := s[Width(s)..];
    if rest != [] {
      UniversalKeepsFinalBreak(rest);
    }
  }

  /** The characters of all lines, in order: what the lines were split from. */
  function Concat(ls: seq<string>): string {
    if ls == [] then [] else ls[0] + Concat(ls[1..])
  }

  /** One line as `readlines()` yields it: not empty, and a '\n' only as its
      last character. */
  predicate IsLine(l: string) {
    l != [] && '\n' !in l[..|l| - 1]
  }

  predicate EndsInBreak(s: string) {
    s != [] && s[|s| - 1] == '\n'
  }

  /** A list of lines in which every line but the last is terminated. */
  predicate WellFormed(ls: seq<string>) {
    forall i :: 0 <= i < |ls| ==> IsLine(ls[i]) && (i < |ls| - 1 ==> EndsInBreak(ls[i]))
  }

  /** Length of the first line of `s`, its terminator included. */
  function LineLength(s: string): (n: nat)
    requires s != []
    ensures 0 < n <= |s|
    ensures '\n' !in s[..n - 1]
    ensures s[n - 1] == '\n' || n == |s|
  {
    if s[0] == '\n' || |s| == 1 then
      1
    else
      var n := 1 + LineLength(s[1..]);
      assert s[..n - 1] == [s[0]] + s[1..][..n - 2];
      n
  }

  /** Putting a line in front of well-formed lines keeps them well formed
      when that line is terminated or stands alone. */
  lemma LinesCons(l: string, rest: seq<string>)
    requires IsLine(l) && WellFormed(rest)
    requires rest != [] ==> EndsInBreak(l)
    ensures WellFormed([l] + rest)
    ensures Concat([l] + rest) == l + Concat(rest)
  {
    var ls := [l] + rest;
    assert ls[1..] == rest;
    forall i | 1 <= i < |ls| ensures ls[i] == rest[i - 1] {
    }
  }

  /** `readlines()`: `s` cut after every '\n'; a final fragment without a
      terminator is a line of its own. */
  function ReadLines(s: string): (ls: seq<string>)
    ensures Concat(ls) == s
    ensures WellFormed(ls)
    ensures ls == [] <==> s == []
    decreases |s|
  {
    if s == [] then
      []
    else
      var n := LineLength(s);
      var l := s[..n];
      var rest := ReadLines(s[n..]);
      assert IsLine(l) by {
        assert l[..n - 1] == s[..n - 1];
      }
      assert rest != [] ==> EndsInBreak(l) by {
        if rest != [] {
          assert s[n - 1] == '\n';
        }
      }
      LinesCons(l, rest);
      assert s == l + s[n..];
      [l] + rest
  }

  lemma {:induction false} ConcatAppend(a: seq<string>, b: seq<string>)
    ensures Concat(a + b) == Concat(a) + Concat(b)
  {
    if a == [] {
      assert a + b == b;
    } else {
      assert (a + b)[1..] == a[1..] + b;
      ConcatAppend(a[1..], b);
    }
  }

  /** `readlines()` is the only way to cut a string into well-formed lines:
      splitting the concatenation of such lines gives them back. */
  lemma {:induction false} ReadLinesUnique(ls: seq<string>)
    requires WellFormed(ls)
    ensures ReadLines(Concat(ls)) == ls
  {
    if ls != [] {
      var s := Concat(ls);
      var l := ls[0];
      assert s == l + Concat(ls[1..]);
      var n := LineLength(s);
      assert n <= |l| by {
        if |l| < |s| {
          assert EndsInBreak(l);
          assert s[|l| - 1] == '\n';
          assert s[..n - 1] == l[..n - 1];
        }
      }
      assert n >= |l|;
      assert s[..n] == l;
      assert s[n..] == Concat(ls[1..]);
      assert WellFormed(ls[1..]) by {
        forall i | 0 <= i < |ls[1..]| ensures IsLine(ls[1..][i]) && (i < |ls[1..]| - 1 ==> EndsInBreak(ls[1..][i])) {
          assert ls[1..][i] == ls[i + 1];
        }
      }
      ReadLinesUnique(ls[1..]);
    }
  }

  /** Python's `"\n".join(ms)`. */
  function Join(ms: seq<string>): string {
    if ms == [] then []
    else if |ms| == 1 then ms[0]
    else ms[0] + "\n" + Join(ms[1..])
  }

  /** Stripping a line leaves no line break in it. */
  lemma StripLineHasNoBreak(l: string)
    requires IsLine(l)
    ensures '\n' !in Strip(l)
  {
    var r := Strip(l);
    var i := Start(l);
    forall k | 0 <= k < |r| ensures r[k] != '\n' {
      if k < |r| - 1 {
        assert r[k] == l[..|l| - 1][i + k];
      } else {
        assert !IsSpace(r[|r| - 1]);
      }
    }
  }

  /** The text of non-empty lines ends where its last line ends. */
  lemma ConcatEndsWithLastLine(ls: seq<string>)
    requires ls != [] && ls[|ls| - 1] != []
    ensures Concat(ls) != []
    ensures Concat(ls)[|Concat(ls)| - 1] == ls[|ls| - 1][|ls[|ls| - 1]| - 1]
  {
    var last := ls[|ls| - 1];
    assert ls == ls[..|ls| - 1] + [last];
    ConcatAppend(ls[..|ls| - 1], [last]);
    assert Concat([last]) == last;
  }

  /** Putting a line after well-formed lines whose last line is terminated
      keeps them well formed. */
  lemma LinesSnoc(ls: seq<string>, l: string)
    requires WellFormed(ls) && IsLine(l)
    requires ls != [] ==> EndsInBreak(ls[|ls| - 1])
    ensures WellFormed(ls + [l])
  {
    var ls' := ls + [l];
    forall i | 0 <= i < |ls| ensures ls'[i] == ls[i] {
    }
  }

  /** `k` is where the last line of `u` starts: at the front or just after a
      '\n', with no '\n' after it except possibly the final character. */
  predicate LastLineAt(u: string, k: int) {
    0 <= k < |u| && (k == 0 || u[k - 1] == '\n') && '\n' !in u[k..|u| - 1]
  }

  /** Text has at most one place where its last line starts; for non-empty
      text `ReadLinesLast` supplies one. */
  lemma LastLineUnique(u: string, k1: int, k2: int)
    requires LastLineAt(u, k1) && LastLineAt(u, k2)
    ensures k1 == k2
  {
  }

  /** A line put after text that is empty or ends in a break is where the
      last line of the whole starts. */
  lemma LastLineAfter(c: string, l: string)
    requires c == [] || EndsInBreak(c)
    requires IsLine(l)
    ensures LastLineAt(c + l, |c|)
    ensures (c + l)[|c|..] == l
  {
    var u := c + l;
    assert u[|c|..|u| - 1] == l[..|l| - 1];
    if c != [] {
      assert u[|c| - 1] == c[|c| - 1];
    }
  }

  /** The last line `readlines()` yields is the text from where the last
      line starts. */
  lemma ReadLinesLast(u: string)
    requires u != []
    ensures LastLineAt(u, |u| - |ReadLines(u)[|ReadLines(u)| - 1]|)
    ensures u[|u| - |ReadLines(u)[|ReadLines(u)| - 1]|..] == ReadLines(u)[|ReadLines(u)| - 1]
  {
    var ls := ReadLines(u);
    var n := |ls|;
    var init := ls[..n - 1];
    var l := ls[n - 1];
    var c := Concat(init);
    assert u == c + l by {
      assert ls == init + [l];
      ConcatAppend(init, [l]);
      assert Concat([l]) == l;
    }
    assert c == [] || EndsInBreak(c) by {
      if init != [] {
        assert init[|init| - 1] == ls[n - 2];
        assert EndsInBreak(ls[n - 2]);
        ConcatEndsWithLastLine(init);
      }
    }
    LastLineAfter(c, l);
  }

  /** Appending one line to text that is empty or ends in a break adds
      exactly that line to what `readlines()` yields. */
  lemma ReadLinesAppendLine(u: string, l: string)
    requires u == [] || EndsInBreak(u)
    requires IsLine(l)
    ensures ReadLines(u + l) == ReadLines(u) + [l]
  {
    var ls := ReadLines(u);
    var ls' := ls + [l];
    assert Concat(ls') == u + l by {
      ConcatAppend(ls, [l]);
      assert Concat([l]) == l;
    }
    assert ls != [] ==> EndsInBreak(ls[|ls| - 1]) by {
      if ls != [] {
        ConcatEndsWithLastLine(ls);
      }
    }
    LinesSnoc(ls, l);
    ReadLinesUnique(ls');
  }
}

=== FILE: notelog.dfy ===
/** Sessions of calls against the notes file: which files can arise from a
    missing one, and what the readers return after a run of appends. */
module NoteLog {
  import opened Wrappers
  import opened Whitespace
  import opened Lines
  import opened Notes

  /** One invocation: `Touch` is a bare `ensure_file`, the internal helper
      the four exposed operations call first; the others are those operations. */
  datatype Call = Touch | Add(message: string) | ReadAll | Latest | Summary

  /** The file and reply one call produces. No call ever removes content:
      the file afterwards exists and starts with what was there before. */
  function Apply(f: File, c: Call): (r: Reply)
    ensures r.file == Next(f, c)
    ensures r.file.Some? && EnsureFile(f).value <= r.file.value
    ensures !c.Add? ==> r.file == EnsureFile(f)
  {
    match c
    case Touch => Reply(EnsureFile(f), "")
    case Add(m) => AddNote(f, m)
    case ReadAll => ReadNotes(f)
    case Latest => GetLatestNote(f)
    case Summary => NoteSummaryPrompt(f)
  }

  /** The file one call leaves behind. Only an append writes; every other
      call at most creates the missing file (`Apply` leaves this file). */
  function Next(f: File, c: Call): File {
    if c.Add? then AddNote(f, c.message).file else EnsureFile(f)
  }

  /** The file after the calls, made one after another starting from `f`. */
  function Run(f: File, calls: seq<Call>): File
    decreases |calls|
  {
    if calls == [] then f else Run(Next(f, calls[0]), calls[1..])
  }

  /** The messages of the `Add` calls, in call order. */
  function Messages(calls: seq<Call>): seq<string> {
    if calls == [] then []
    else (if calls[0].Add? then [calls[0].message] else []) + Messages(calls[1..])
  }

  /** One `add_note` per message, in order. */
  function Adds(ms: seq<string>): seq<Call> {
    seq(|ms|, i requires 0 <= i < |ms| => Add(ms[i]))
  }

  /** Each message with the line break `add_note` writes after it. */
  function Terminated(ms: seq<string>): seq<string> {
    seq(|ms|, i requires 0 <= i < |ms| => ms[i] + "\n")
  }

  /** The content the appends of `ms` leave in a file that started empty. */
  function Log(ms: seq<string>): string {
    Concat(Terminated(ms))
  }

  /** A note the file format can hold as one line. */
  predicate SingleLine(m: string) {
    '\n' !in m && '\r' !in m
  }

  /** The shape every file this server writes has: missing, empty, or
      ending in a line break. */
  predicate Consistent(f: File) {
    f.None? || f.value == [] || EndsInBreak(f.value)
  }

  // ---------------------------------------------------------------------
  // Helpers about the log of appended messages

  lemma {:induction false} MessagesOfAdds(ms: seq<string>)
    ensures Messages(Adds(ms)) == ms
  {
    if ms != [] {
      assert Adds(ms)[1..] == Adds(ms[1..]);
      MessagesOfAdds(ms[1..]);
    }
  }

  lemma LogAppend(a: seq<string>, b: seq<string>)
    ensures Log(a + b) == Log(a) + Log(b)
  {
    assert Terminated(a + b) == Terminated(a) + Terminated(b);
    ConcatAppend(Terminated(a), Terminated(b));
  }

  lemma LogSingle(m: string)
    ensures Log([m]) == m + "\n"
  {
    var ts := Terminated([m]);
    assert ts == [m + "\n"];
    assert ts[1..] == [];
    assert Concat(ts) == ts[0] + Concat([]);
  }

  // ---------------------------------------------------------------------
  // Properties of single calls

  /** `ensure_file` is idempotent: a second call changes nothing. */
  lemma EnsureFileIdempotent(f: File)
    ensures EnsureFile(EnsureFile(f)) == EnsureFile(f)
    ensures Apply(Apply(f, Touch).file, Touch) == Apply(f, Touch)
  {
  }

  /** On a missing or empty file all three readers return the sentinel. */
  lemma EmptyStateSentinel(f: File)
    requires f.None? || f.value == []
    ensures ReadNotes(f).text == NoNotes
    ensures GetLatestNote(f).text == NoNotes
    ensures NoteSummaryPrompt(f).text == NoNotes
  {
  }

  /** The last line written is what `get_latest_note` returns, stripped,
      whatever consistent file it was appended to. */
  lemma LatestAfterAdd(f: File, m: string)
    requires Consistent(f) && SingleLine(m)
    ensures GetLatestNote(AddNote(f, m).file).text == Strip(m)
  {
    var c := EnsureFile(f).value;
    var raw := AddNote(f, m).file.value;
    assert raw == c + (m + "\n");
    UniversalConcat(c, m + "\n");
    UniversalIdentity(m + "\n");
    var u := Universal(c);
    if c != [] {
      UniversalKeepsFinalBreak(c);
    }
    assert (m + "\n")[..|m|] == m;
    ReadLinesAppendLine(u, m + "\n");
    StripIgnoresTrailingSpace(m, "\n");
  }

  /** A blank note on a blank file: `get_latest_note` sees one line and
      returns the empty string, while `read_notes` and the summary prompt
      still report that there are no notes. */
  lemma BlankNoteDivergence(f: File, m: string)
    requires Consistent(f) && AllSpace(EnsureFile(f).value)
    requires SingleLine(m) && AllSpace(m)
    ensures GetLatestNote(AddNote(f, m).file).text == ""
    ensures ReadNotes(AddNote(f, m).file).text == NoNotes
    ensures NoteSummaryPrompt(AddNote(f, m).file).text == NoNotes
  {
    LatestAfterAdd(f, m);
    AllSpaceConcat(EnsureFile(f).value, m);
    AllSpaceConcat(EnsureFile(f).value + m, "\n");
  }

  /** The instance the server actually meets: one empty note on a fresh file. */
  lemma EmptyNoteDivergence()
    ensures GetLatestNote(AddNote(None, "").file).text == ""
    ensures ReadNotes(AddNote(None, "").file).text == NoNotes
  {
    BlankNoteDivergence(None, "");
  }

  /** On a blank file, `read_notes` after one append returns the note
      stripped, or the sentinel when the note is blank too. */
  lemma ReadNotesAfterBlank(f: File, m: string)
    requires Consistent(f) && AllSpace(EnsureFile(f).value) && '\r' !in m
    ensures !AllSpace(m) ==> ReadNotes(AddNote(f, m).file).text == Strip(m)
    ensures AllSpace(m) ==> ReadNotes(AddNote(f, m).file).text == NoNotes
  {
    var c := EnsureFile(f).value;
    var raw := c + m + "\n";
    assert AllSpace("\n") by {
      AllSpaceSingle('\n');
    }
    AllSpaceConcat(c, m);
    AllSpaceConcat(c + m, "\n");
    if !AllSpace(m) {
      assert ReadText(Some(raw)) == Universal(c) + m + "\n" by {
        assert c == [] || c[|c| - 1] != '\r';
        assert raw == c + (m + "\n");
        UniversalConcat(c, m + "\n");
        UniversalIdentity(m + "\n");
      }
      UniversalKeepsBlankness(c);
      StripIgnoresSurroundingSpace(Universal(c), m, "\n");
    }
  }

  /** A note whose text is the sentinel cannot be told apart from no notes
      by `read_notes`. */
  lemma SentinelNoteIsInvisible()
    ensures ReadNotes(AddNote(None, NoNotes).file).text == ReadNotes(None).text
  {
    assert !IsSpace(NoNotes[0]) && !IsSpace(NoNotes[|NoNotes| - 1]);
    StripTrimmed(NoNotes);
    ReadNotesAfterBlank(None, NoNotes);
  }

  // ---------------------------------------------------------------------
  // Properties of runs of calls

  /** The messages one call appends: its own for `Add`, none otherwise. */
  function Appended(c: Call): seq<string> {
    if c.Add? then [c.message] else []
  }

  lemma NextAppends(f: File, c: Call)
    ensures Next(f, c) == Some(EnsureFile(f).value + Log(Appended(c)))
  {
    if c.Add? {
      LogSingle(c.message);
      assert Next(f, c).value == EnsureFile(f).value + (c.message + "\n");
    } else {
      assert Terminated([]) == [];
      assert EnsureFile(f).value + Log([]) == EnsureFile(f).value;
    }
  }

  /** A run leaves the file it started from followed by every appended
      message and its line break, in call order. */
  lemma {:induction false} RunAppends(f: File, calls: seq<Call>)
    ensures calls == [] ==> Run(f, calls) == f
    ensures calls != [] ==> Run(f, calls) == Some(EnsureFile(f).value + Log(Messages(calls)))
    decreases |calls|
  {
    if calls != [] {
      var c := calls[0];
      var g := Next(f, c);
      var rest := calls[1..];
      var x := EnsureFile(f).value;
      var y := Log(Appended(c));
      assert Messages(calls) == Appended(c) + Messages(rest);
      assert Run(f, calls) == Run(g, rest);
      assert g == Some(x + y) by {
        NextAppends(f, c);
      }
      RunAppends(g, rest);
      if rest == [] {
        assert Messages(calls) == Appended(c) by {
          assert Messages(rest) == [];
        }
      } else {
        var z := Log(Messages(rest));
        assert Run(g, rest) == Some(x + y + z);
        assert y + z == Log(Messages(calls)) by {
          LogAppend(Appended(c), Messages(rest));
        }
        assert x + y + z == x + (y + z);
      }
    }
  }

  /** Every file reachable from a missing one is missing, empty, or ends in
      a line break. */
  lemma {:induction false} RunKeepsConsistent(f: File, calls: seq<Call>)
    requires Consistent(f)
    ensures Consistent(Run(f, calls))
    decreases |calls|
  {
    if calls != [] {
      var g := Next(f, calls[0]);
      assert Consistent(g) by {
        if calls[0].Add? {
          var v := g.value;
          assert v[|v| - 1] == '\n';
        }
      }
      RunKeepsConsistent(g, calls[1..]);
    }
  }

  lemma Reachable(calls: seq<Call>)
    ensures Consistent(Run(None, calls))
  {
    RunKeepsConsistent(None, calls);
  }

  /** The file after appending `ms` to a missing file holds their log. */
  lemma AddsLeaveLog(ms: seq<string>)
    requires ms != []
    ensures Run(None, Adds(ms)) == Some(Log(ms))
  {
    RunAppends(None, Adds(ms));
    MessagesOfAdds(ms);
    assert "" + Log(ms) == Log(ms);
  }

  /** What reading back the appends of `ms` yields: their log, untouched
      by newline translation when no message holds a carriage return. */
  lemma ReadTextOfAdds(ms: seq<string>)
    requires ms != []
    requires forall i :: 0 <= i < |ms| ==> '\r' !in ms[i]
    ensures Run(None, Adds(ms)) == Some(Log(ms))
    ensures ReadText(Run(None, Adds(ms))) == Log(ms)
  {
    AddsLeaveLog(ms);
    LogAvoids(ms, '\r');
    UniversalIdentity(Log(ms));
  }

  lemma {:induction false} LogAvoids(ms: seq<string>, ch: char)
    requires ch != '\n'
    requires forall i :: 0 <= i < |ms| ==> ch !in ms[i]
    ensures ch !in Log(ms)
  {
    if ms != [] {
      assert ms == [ms[0]] + ms[1..];
      LogAppend([ms[0]], ms[1..]);
      LogSingle(ms[0]);
      LogAvoids(ms[1..], ch);
    }
  }

  /** One line per note, in append order: reading the file back with
      `readlines()` yields each message with its line break. */
  lemma NotesAreLines(ms: seq<string>)
    requires ms != []
    requires forall i :: 0 <= i < |ms| ==> SingleLine(ms[i])
    ensures ReadLines(ReadText(Run(None, Adds(ms)))) == Terminated(ms)
  {
    ReadTextOfAdds(ms);
    var ts := Terminated(ms);
    assert WellFormed(ts) by {
      forall i | 0 <= i < |ts| ensures IsLine(ts[i]) && EndsInBreak(ts[i]) {
        assert ts[i][..|ts[i]| - 1] == ms[i];
      }
    }
    ReadLinesUnique(ts);
  }

  /** After a run of single-line appends, `get_latest_note` returns the last
      message, stripped. */
  lemma LatestIsLastNote(ms: seq<string>)
    requires ms != []
    requires forall i :: 0 <= i < |ms| ==> SingleLine(ms[i])
    ensures GetLatestNote(Run(None, Adds(ms))).text == Strip(ms[|ms| - 1])
  {
    var f := Run(None, Adds(ms));
    var ls := ReadLines(ReadText(f));
    var m := ms[|ms| - 1];
    assert ls == Terminated(ms) by {
      NotesAreLines(ms);
    }
    assert ls != [] && ls[|ls| - 1] == m + "\n";
    assert Strip(m + "\n") == Strip(m) by {
      StripIgnoresTrailingSpace(m, "\n");
    }
  }

  lemma {:induction false} LogIsJoin(ms: seq<string>)
    requires ms != []
    ensures Log(ms) == Join(ms) + "\n"
  {
    if |ms| == 1 {
      assert ms == [ms[0]];
      LogSingle(ms[0]);
    } else {
      assert ms == [ms[0]] + ms[1..];
      LogAppend([ms[0]], ms[1..]);
      LogSingle(ms[0]);
      LogIsJoin(ms[1..]);
    }
  }

  /** `"\n".join(ms)` ends where its last message ends. */
  lemma {:induction false} JoinEndsWithLast(ms: seq<string>)
    requires ms != [] && ms[|ms| - 1] != []
    ensures Join(ms) != []
    ensures Join(ms)[|Join(ms)| - 1] == ms[|ms| - 1][|ms[|ms| - 1]| - 1]
  {
    if |ms| > 1 {
      JoinEndsWithLast(ms[1..]);
    }
  }

  /** Append ordering: after appending single-line messages to a missing
      file, `read_notes` returns them joined by line breaks, provided the
      first does not start and the last does not end with whitespace. */
  lemma ReadNotesJoins(ms: seq<string>)
    requires ms != []
    requires forall i :: 0 <= i < |ms| ==> SingleLine(ms[i])
    requires ms[0] != [] && !IsSpace(ms[0][0])
    requires ms[|ms| - 1] != [] && !IsSpace(ms[|ms| - 1][|ms[|ms| - 1]| - 1])
    ensures ReadNotes(Run(None, Adds(ms))).text == Join(ms)
  {
    ReadTextOfAdds(ms);
    LogIsJoin(ms);
    JoinEndsWithLast(ms);
    assert Join(ms)[0] == ms[0][0];
    AllSpaceSingle('\n');
    StripIgnoresTrailingSpace(Join(ms), "\n");
    StripTrimmed(Join(ms));
    assert Log(ms)[0] == Join(ms)[0];
  }

  /** The append-ordering property for trimmed notes: `read_notes` returns
      them joined in call order and `get_latest_note` returns the last. */
  lemma AppendOrdering(ms: seq<string>)
    requires ms != []
    requires forall i :: 0 <= i < |ms| ==> SingleLine(ms[i]) && Trimmed(ms[i])
    requires ms[0] != [] && ms[|ms| - 1] != []
    ensures ReadNotes(Run(None, Adds(ms))).text == Join(ms)
    ensures GetLatestNote(Run(None, Adds(ms))).text == ms[|ms| - 1]
  {
    var last := ms[|ms| - 1];
    var f := Run(None, Adds(ms));
    assert ReadNotes(f).text == Join(ms) by {
      assert forall i :: 0 <= i < |ms| ==> SingleLine(ms[i]);
      assert Trimmed(ms[0]) && Trimmed(last);
      ReadNotesJoins(ms);
    }
    assert GetLatestNote(f).text == last by {
      assert forall i :: 0 <= i < |ms| ==> SingleLine(ms[i]);
      LatestIsLastNote(ms);
      StripTrimmed(last);
    }
  }

  /** The trimmed-notes condition cannot be dropped: an empty first note
      leaves a leading line break that `read_notes` strips away, so the
      result is not the joined messages. */
  lemma EmptyFirstNoteBreaksJoin(m: string)
    requires m != [] && Trimmed(m) && '\r' !in m
    ensures ReadNotes(Run(None, Adds(["", m]))).text == m
    ensures Join(["", m]) == "\n" + m
  {
    var ms := ["", m];
    assert Join(ms[1..]) == m;
    ReadTextOfAdds(ms);
    var log := "\n" + m + "\n";
    assert Log(ms) == log by {
      LogIsJoin(ms);
    }
    assert AllSpace("\n") by {
      AllSpaceSingle('\n');
    }
    StripCharacterized("\n", m, "\n");
    assert !AllSpace(log) by {
      assert log[1] == m[0];
    }
  }

  /** Where the `i`-th message sits in the log of all of them. */
  lemma LogSplit(ms: seq<string>, i: nat)
    requires i < |ms|
    ensures Log(ms) == Log(ms[..i]) + (ms[i] + "\n") + Log(ms[i + 1..])
  {
    assert ms == ms[..i] + [ms[i]] + ms[i + 1..];
    LogAppend(ms[..i] + [ms[i]], ms[i + 1..]);
    LogAppend(ms[..i], [ms[i]]);
    LogSingle(ms[i]);
  }

  /** Every message, stripped, occurs in the log. */
  lemma NoteInLog(ms: seq<string>, i: nat)
    requires i < |ms|
    ensures InfixAt(Strip(ms[i]), Log(ms), |Log(ms[..i])| + Start(ms[i]))
  {
    LogSplit(ms, i);
    var c := Strip(ms[i]);
    var a := |Log(ms[..i])| + Start(ms[i]);
    var log := Log(ms);
    assert log[a..a + |c|] == ms[i][Start(ms[i])..Start(ms[i]) + |c|];
  }

  /** The summary prompt after appends of notes without a '\r': the request
      followed by the stripped log, unless the log is only whitespace. */
  lemma SummaryOfAdds(ms: seq<string>)
    requires ms != []
    requires forall j :: 0 <= j < |ms| ==> '\r' !in ms[j]
    ensures !AllSpace(Log(ms)) ==> NoteSummaryPrompt(Run(None, Adds(ms))).text == SummaryPrefix + Strip(Log(ms))
    ensures AllSpace(Log(ms)) ==> NoteSummaryPrompt(Run(None, Adds(ms))).text == NoNotes
  {
    var f := Run(None, Adds(ms));
    assert EnsureFile(f).value == Log(ms) && ReadText(f) == Log(ms) by {
      ReadTextOfAdds(ms);
    }
  }

  /** The summary prompt contains every appended note, stripped. */
  lemma SummaryMentionsEveryNote(ms: seq<string>, i: nat)
    requires i < |ms|
    requires forall j :: 0 <= j < |ms| ==> '\r' !in ms[j]
    ensures exists k :: InfixAt(Strip(ms[i]), NoteSummaryPrompt(Run(None, Adds(ms))).text, k)
  {
    var c := Strip(ms[i]);
    var text := NoteSummaryPrompt(Run(None, Adds(ms))).text;
    if c == [] {
      assert InfixAt(c, text, 0);
    } else {
      var log := Log(ms);
      var a := |Log(ms[..i])| + Start(ms[i]);
      assert InfixAt(c, Strip(log), a - Start(log)) && !AllSpace(log) by {
        NoteInLog(ms, i);
        StripKeepsTrimmedInfix(log, c, a);
        assert log[a] == c[0];
      }
      assert text == SummaryPrefix + Strip(log) by {
        SummaryOfAdds(ms);
      }
      InfixAfterPrefix(c, SummaryPrefix, Strip(log), a - Start(log));
    }
  }
}

=== FILE: notes.dfy ===
/** The note operations of the sticky-notes server. The whole state is the
    notes file: `None` while it does not exist, otherwise its raw content.
    Every operation is a pure function from the file before the call to the
    file after it together with the string the call returns. */
module Notes {
  import opened Wrappers
  import opened Whitespace
  import opened Lines

  type File = Option<string>

  /** What one call leaves behind: the file afterwards and the returned text. */
  datatype Reply = Reply(file: File, text: string)

  /** Returned by every reader when there is nothing to show. */
  const NoNotes := "No notes yet"

  /** The confirmation `add_note` returns. */
  const Saved := "Note saved!"

  /** The fixed text the summary prompt puts in front of the notes. */
  const SummaryPrefix := "Summarize the current notes "

  /** `ensure_file`: creates the file empty when it is missing, otherwise
      leaves it alone. */
  function EnsureFile(f: File): (g: File)
    ensures g.Some?
    ensures f.Some? ==> g == f
    ensures f.None? ==> g.value == ""
  {
    if f.None? then Some("") else f
  }

  /** What `f.read()` returns after `ensure_file`: the raw content with
      universal newline translation applied. */
  function ReadText(f: File): (t: string)
    ensures '\r' !in t
    ensures t == [] <==> EnsureFile(f).value == []
    ensures '\r' !in EnsureFile(f).value ==> t == EnsureFile(f).value
  {
    var raw := EnsureFile(f).value;
    assert '\r' !in raw ==> Universal(raw) == raw by {
      if '\r' !in raw {
        UniversalIdentity(raw);
      }
    }
    Universal(raw)
  }

  /** `add_note`: appends the message and a line break, after lazy creation. */
  function AddNote(f: File, message: string): (r: Reply)
    ensures r.text == Saved
    ensures r.file.Some?
    ensures |r.file.value| == |EnsureFile(f).value| + |message| + 1
    ensures r.file.value[..|EnsureFile(f).value|] == EnsureFile(f).value
    ensures r.file.value[|EnsureFile(f).value|..] == message + "\n"
  {
    Reply(Some(EnsureFile(f).value + message + "\n"), Saved)
  }

  /** `read_notes`: the whole content stripped, or the sentinel when the
      file holds nothing but whitespace. */
  function ReadNotes(f: File): (r: Reply)
    ensures r.file == EnsureFile(f)
    ensures AllSpace(EnsureFile(f).value) ==> r.text == NoNotes
    ensures !AllSpace(EnsureFile(f).value) ==> r.text == Strip(ReadText(f)) && r.text != []
  {
    UniversalKeepsBlankness(EnsureFile(f).value);
    var content := Strip(ReadText(f));
    Reply(EnsureFile(f), if content == [] then NoNotes else content)
  }

  /** `get_latest_note`: the last line `readlines()` yields, stripped, or the
      sentinel when there is no line at all. */
  function GetLatestNote(f: File): (r: Reply)
    ensures r.file == EnsureFile(f)
    ensures EnsureFile(f).value == [] ==> r.text == NoNotes
    ensures EnsureFile(f).value != [] ==> Trimmed(r.text) && '\n' !in r.text
    ensures EnsureFile(f).value != [] ==>
      exists k :: LastLineAt(ReadText(f), k) && r.text == Strip(ReadText(f)[k..])
  {
    var u := ReadText(f);
    var lines := ReadLines(u);
    if lines == [] then
      Reply(EnsureFile(f), NoNotes)
    else
      var last := lines[|lines| - 1];
      var k := |u| - |last|;
      assert LastLineAt(u, k) && u[k..] == last by {
        ReadLinesLast(u);
      }
      assert Trimmed(Strip(last)) && '\n' !in Strip(last) by {
        StripLineHasNoBreak(last);
      }
      Reply(EnsureFile(f), Strip(last))
  }

  /** `note_summary_prompt`: the sentinel when the file holds nothing but
      whitespace, otherwise the fixed prefix followed by what `read_notes`
      returns. */
  function NoteSummaryPrompt(f: File): (r: Reply)
    ensures r.file == EnsureFile(f)
    ensures r.text == NoNotes <==> AllSpace(EnsureFile(f).value)
    ensures !AllSpace(EnsureFile(f).value) ==> r.text == SummaryPrefix + ReadNotes(f).text
  {
    UniversalKeepsBlankness(EnsureFile(f).value);
    var content := Strip(ReadText(f));
    Reply(EnsureFile(f), if content == [] then NoNotes else SummaryPrefix + content)
  }
}

=== FILE: whitespace.dfy ===
/** Python's `str.isspace()` and `str.strip()` with no argument. */
module Whitespace {

  /** The characters Python's `str.isspace()` accepts: the ASCII controls
      TAB..CR and FS..US, SPACE, NEL, NO-BREAK SPACE and the Unicode space
      separators and line/paragraph separators. */
  predicate IsSpace(c: char) {
    || c == ' '
    || ('\t' <= c <= '\r')
    || ('\U{1C}' <= c <= '\U{1F}')
    || c == '\U{85}'
    || c == '\U{A0}'
    || c == '\U{1680}'
    || ('\U{2000}' <= c <= '\U{200A}')
    || c == '\U{2028}'
    || c == '\U{2029}'
    || c == '\U{202F}'
    || c == '\U{205F}'
    || c == '\U{3000}'
  }

  /** The whitespace code points listed one by one, in code point order. */
  const PythonWhitespace: string :=
    "\t\n\U{0B}\U{0C}\r\U{1C}\U{1D}\U{1E}\U{1F} \U{85}\U{A0}\U{1680}"
    + "\U{2000}\U{2001}\U{2002}\U{2003}\U{2004}\U{2005}\U{2006}\U{2007}\U{2008}\U{2009}\U{200A}"
    + "\U{2028}\U{2029}\U{202F}\U{205F}\U{3000}"

  /** `IsSpace` accepts exactly the 29 listed code points. */
  lemma IsSpaceMatchesTable(c: char)
    ensures |PythonWhitespace| == 29
    ensures IsSpace(c) <==> c in PythonWhitespace
  {
  }

  /** Every character of `s` at an index in `[lo, hi)` is whitespace. */
  predicate SpaceIn(s: string, lo: int, hi: int) {
    forall k :: 0 <= lo <= k < hi <= |s| ==> IsSpace(s[k])
  }

  predicate AllSpace(s: string) {
    SpaceIn(s, 0, |s|)
  }

  /** Neither end of `s` is whitespace (the empty string qualifies). */
  predicate Trimmed(s: string) {
    s == [] || (!IsSpace(s[0]) && !IsSpace(s[|s| - 1]))
  }

  /** The first index at or after `i` that does not hold whitespace, or
      `|s|` if there is none: where the scan of `strip` from the left stops. */
  function LeadFrom(s: string, i: nat): (n: nat)
    requires i <= |s|
    ensures i <= n <= |s|
    ensures SpaceIn(s, i, n)
    ensures n < |s| ==> !IsSpace(s[n])
    decreases |s| - i
  {
    if i < |s| && IsSpace(s[i]) then LeadFrom(s, i + 1) else i
  }

  /** The last index at or before `j` whose predecessor is not whitespace, or
      0 if there is none: where the scan of `strip` from the right stops. */
  function TrailFrom(s: string, j: nat): (n: nat)
    requires j <= |s|
    ensures n <= j
    ensures SpaceIn(s, n, j)
    ensures n > 0 ==> !IsSpace(s[n - 1])
  {
    if j > 0 && IsSpace(s[j - 1]) then TrailFrom(s, j - 1) else j
  }

  /** Index of the first character `strip` keeps. */
  function Start(s: string): nat
    ensures Start(s) <= |s|
  {
    LeadFrom(s, 0)
  }

  /** Index just after the last character `strip` keeps. */
  function End(s: string): nat
    ensures End(s) <= |s|
  {
    TrailFrom(s, |s|)
  }

  /** `s.strip()`: `s` without its leading and trailing whitespace. */
  function Strip(s: string): (r: string)
    ensures Trimmed(r)
    ensures r == [] <==> AllSpace(s)
  {
    if Start(s) == |s| then
      []
    else
      assert Start(s) < End(s);
      s[Start(s)..End(s)]
  }

  /** `Strip` removes nothing but whitespace: `s` is `Strip(s)` with a run of
      whitespace on either side. */
  lemma StripCutsOnlySpace(s: string)
    ensures Start(s) + |Strip(s)| <= |s|
    ensures s[Start(s)..Start(s) + |Strip(s)|] == Strip(s)
    ensures SpaceIn(s, 0, Start(s))
    ensures SpaceIn(s, Start(s) + |Strip(s)|, |s|)
  {
    if Start(s) < |s| {
      assert Start(s) < End(s);
    }
  }

  /** The scan from the left stops exactly at `i` when everything from `j`
      up to `i` is whitespace and `s[i]` is not: the scan's result is the
      only index with that property. */
  lemma LeadFromReaches(s: string, j: nat, i: nat)
    requires j <= i <= |s|
    requires SpaceIn(s, j, i)
    requires i < |s| ==> !IsSpace(s[i])
    ensures LeadFrom(s, j) == i
  {
  }

  /** The scan from the right stops exactly at `e` when everything from `e`
      up to `j` is whitespace and `s[e - 1]` is not: the scan's result is the
      only index with that property. */
  lemma TrailFromReaches(s: string, j: nat, e: nat)
    requires e <= j <= |s|
    requires SpaceIn(s, e, j)
    requires e > 0 ==> !IsSpace(s[e - 1])
    ensures TrailFrom(s, j) == e
  {
  }

  lemma AllSpaceConcat(a: string, b: string)
    ensures AllSpace(a + b) <==> AllSpace(a) && AllSpace(b)
  {
    var s := a + b;
    assert forall k :: 0 <= k < |a| ==> s[k] == a[k];
    assert forall k :: 0 <= k < |b| ==> s[|a| + k] == b[k];
  }

  /** The characterisation of `Strip`: whatever whitespace surrounds a
      trimmed string, stripping gives back exactly that string. */
  lemma StripCharacterized(p: string, c: string, q: string)
    requires AllSpace(p) && AllSpace(q) && Trimmed(c)
    ensures Strip(p + c + q) == c
  {
    var s := p + c + q;
    AllSpaceConcat(p, c);
    AllSpaceConcat(p + c, q);
    if c != [] {
      assert forall k :: 0 <= k < |p| ==> s[k] == p[k];
      assert forall k :: 0 <= k < |q| ==> s[|p| + |c| + k] == q[k];
      assert s[|p|] == c[0];
      assert s[|p| + |c| - 1] == c[|c| - 1];
      LeadFromReaches(s, 0, |p|);
      TrailFromReaches(s, |s|, |p| + |c|);
      assert s[|p|..|p| + |c|] == c;
    }
  }

  /** A string with no whitespace at either end is its own strip. */
  lemma StripTrimmed(c: string)
    requires Trimmed(c)
    ensures Strip(c) == c
  {
    if c != [] {
      LeadFromReaches(c, 0, 0);
      TrailFromReaches(c, |c|, |c|);
      assert c[0..|c|] == c;
    }
  }

  /** Stripping is idempotent. */
  lemma StripIdempotent(s: string)
    ensures Strip(Strip(s)) == Strip(s)
  {
    StripTrimmed(Strip(s));
  }

  /** The whitespace `strip` cuts from the front of `s`. */
  function Leading(s: string): string {
    s[..Start(s)]
  }

  /** The whitespace `strip` cuts from the back of `s`. */
  function Trailing(s: string): string {
    StripCutsOnlySpace(s);
    s[Start(s) + |Strip(s)|..]
  }

  /** `s` is its strip with whitespace on either side. */
  lemma StripSplit(s: string)
    ensures AllSpace(Leading(s)) && AllSpace(Trailing(s))
    ensures s == Leading(s) + Strip(s) + Trailing(s)
  {
    StripCutsOnlySpace(s);
    var p := Leading(s);
    var q := Trailing(s);
    var i := Start(s) + |Strip(s)|;
    assert AllSpace(p) by {
      assert forall k :: 0 <= k < |p| ==> p[k] == s[k];
    }
    assert AllSpace(q) by {
      assert forall k :: 0 <= k < |q| ==> q[k] == s[i + k];
    }
  }

  /** Trailing whitespace added to a string does not change what it strips to. */
  lemma StripIgnoresTrailingSpace(s: string, w: string)
    requires AllSpace(w)
    ensures Strip(s + w) == Strip(s)
  {
    var r := Strip(s);
    var p := Leading(s);
    var q := Trailing(s);
    StripSplit(s);
    assert s + w == p + r + (q + w) by {
      assert s == p + r + q;
    }
    AllSpaceConcat(q, w);
    StripCharacterized(p, r, q + w);
  }

  /** Leading whitespace added to a string does not change what it strips to. */
  lemma StripIgnoresLeadingSpace(v: string, s: string)
    requires AllSpace(v)
    ensures Strip(v + s) == Strip(s)
  {
    var r := Strip(s);
    var p := Leading(s);
    var q := Trailing(s);
    StripSplit(s);
    assert v + s == (v + p) + r + q by {
      assert s == p + r + q;
    }
    AllSpaceConcat(v, p);
    StripCharacterized(v + p, r, q);
  }

  /** Whitespace added around a string does not change what it strips to. */
  lemma StripIgnoresSurroundingSpace(v: string, s: string, w: string)
    requires AllSpace(v) && AllSpace(w)
    ensures Strip(v + s + w) == Strip(s)
  {
    StripIgnoresTrailingSpace(v + s, w);
    StripIgnoresLeadingSpace(v, s);
  }

  /** `a` occurs in `b` starting at index `k`. */
  predicate InfixAt(a: string, b: string, k: nat) {
    k + |a| <= |b| && b[k..k + |a|] == a
  }

  /** A trimmed piece of `s` that is not empty survives `strip` in place:
      only whitespace is ever cut away. */
  lemma StripKeepsTrimmedInfix(s: string, c: string, a: nat)
    requires InfixAt(c, s, a) && Trimmed(c) && c != []
    ensures Start(s) <= a
    ensures InfixAt(c, Strip(s), a - Start(s))
  {
    var r := Strip(s);
    var j := Start(s);
    StripCutsOnlySpace(s);
    assert s[a] == c[0];
    assert s[a + |c| - 1] == c[|c| - 1];
    assert a >= j;
    assert a + |c| <= j + |r|;
    assert forall k :: 0 <= k < |c| ==> r[a - j + k] == s[j..j + |r|][a - j + k] == s[a + k] == c[k];
    assert r[a - j..a - j + |c|] == c;
  }

  lemma InfixAfterPrefix(c: string, p: string, s: string, j: nat)
    requires InfixAt(c, s, j)
    ensures InfixAt(c, p + s, |p| + j)
  {
    assert (p + s)[|p| + j..|p| + j + |c|] == s[j..j + |c|];
  }
}

=== FILE: wrappers.dfy ===
/** The optional-value datatype used for a file that may not exist yet. */
module Wrappers {

  datatype Option<+T> = None | Some(value: T)
}
